=== FILE: README.md ===
# Leaflow daily check-in, modelled in Dafny

This project models the core of `leaflow_checkin.py`, a script that signs
one or more Leaflow accounts in and performs the daily check-in.

- `MultiAccountManager.load_accounts` reads the account list out of the
  `LEAFLOW_ACCOUNTS` value (`email1:pw1,email2:pw2,...`).
- `MultiAccountManager.run_all` runs one `LeaflowAutoCheckin` per account, in order.
- Each `LeaflowAutoCheckin` does the following:
  - checks its credentials in the constructor;
  - logs in, trying four selectors for the email field;
  - classifies the check-in button ("今日已签到", "签到成功", "签到失败");
  - scans the dashboard text for the first number (`\d+\.?\d*`) as its balance;
  - returns `(success, message, balance)` from `run`, always quitting the browser.

Modules:

- `Outcomes`: `Option`, and `Outcome` (a value, or a raised exception's
  message) for every call that returns or raises.
- `Text`: the Python string operations the script relies on: `str.strip()`,
  `str.split(",")`, `str.split(":", 1)`, and `in` on strings. It also holds
  `Join`, the model's own writer of a configuration value. The script never
  joins; `Join` is only there to state the round trip of `load_accounts`.
- `Accounts`: `load_accounts`, as a loop method proved against the function
  `ParseItems`, with the round trip from a written-out account list.
- `Balance`: the text scan of `get_balance`, proved to find the leftmost and
  longest match of the pattern.
- `Checkin`: `LeaflowAutoCheckin` as the class `Checker`.
  - The browser is an oracle of scripted answers (`Browser`): which locators
    become clickable, which page loads raise, the text of each wait's timeout,
    what the check-in button and the dashboard body hold, and whether
    `quit()` raises.
  - The object's `trace` records, in order, the page loads, the waits for an
    element, the typing, the clicks on the login and check-in buttons and the
    final quit. The wait for the URL to leave the login page, the coordinate
    click of `close_popup` and the element lookups of `checkin` and
    `get_balance` are not recorded.
  - Each method is proved to return its specification function's value
    (`LoginOutcome`, `CheckinOutcome`, `BalanceOutcome`, and for `Run`,
    `RunCompletion`, which wraps `RunOutcome`).
  - Each method is also proved to extend `trace` by that function's trace
    (`LoginTrace`, `CheckinTrace`, `RunTrace`).
  - The lemmas about those functions state the script's promises:
    - the first clickable selector is used, and no later one is tried;
    - "already checked in" never clicks;
    - a failed login skips everything after it, and a check-in page that
      fails to load skips the dashboard;
    - the browser is quit exactly once, last.
- `Manager`: `MultiAccountManager`, with `run_all` proved against
  `RunAllOutcome`. The browser of the account at position `i` is `sessions(i)`.

Behaviour of the code worth noting:

- An item without a colon is skipped silently, not rejected. An item with an
  empty email or password is kept by `load_accounts`. The
  `LeaflowAutoCheckin` constructor then raises for that item, and the
  `ValueError` escapes `run_all`. That aborts the remaining accounts and
  discards the results collected so far (`Manager.EmptyFieldAbortsRun`).
- The balance pattern is `\d+\.?\d*` with no currency marker. Any number on
  the dashboard counts, and " 元" is appended to it.
- `driver.get` of the check-in page and of the dashboard sit outside the
  methods' `try` blocks. A failure to load either page therefore makes the
  whole run fail, with the navigation error's text, so the balance step can
  affect success.
- `quit()` runs in `run`'s `finally` clause. If it raises, that exception
  replaces `run`'s result and escapes `run_all`, aborting it like a
  constructor error (`Manager.QuitErrorAbortsRun`).
- `checkin` returning "签到失败" is not a failure: `run` still reports success
  and reads the balance (`Checkin.FailedCheckinStillSucceeds`).

## Model

| member | source | states |
|---|---|---|
| Text.Strip | leaflow_checkin.py:212-213 | the result has no whitespace (Python `isspace`) at either end, is no longer than the input, and an already stripped string is unchanged |
| Text.StripPadded | leaflow_checkin.py:212-213 | stripping removes exactly the surrounding whitespace: padding a stripped string on both sides strips back to it |
| Text.Split | leaflow_checkin.py:208 | `split(",")` gives at least one piece, no piece holds the separator, and joining the pieces with it gives back the input |
| Text.SplitJoin | leaflow_checkin.py:208 | splitting a join of separator-free pieces gives back exactly those pieces |
| Text.SplitWithoutSeparator | leaflow_checkin.py:208 | a value without commas is one item |
| Text.SplitFirst | leaflow_checkin.py:210 | `split(":", 1)` cuts at the first colon: the input is `before + ":" + after` and `before` has no colon |
| Text.SplitFirstOf | leaflow_checkin.py:210 | cutting `before + ":" + after` with colon-free `before` gives back `before` and `after` |
| Text.IndexOf | leaflow_checkin.py:209-210 | position of the first occurrence, or the length when there is none |
| Text.Contains | leaflow_checkin.py:156 | the `in` test holds exactly when the marker occurs at some position of the text |
| Text.OccursInTail | leaflow_checkin.py:156 | when the marker does not start the text, it occurs in the text exactly when it occurs in the text's tail |
| Accounts.ParseItem | leaflow_checkin.py:210-214 | an item's account has stripped email and password, both shorter together than the item |
| Accounts.Collected | leaflow_checkin.py:209-214 | an item contributes at most one account, and none exactly when it has no colon |
| Accounts.ParseItems | leaflow_checkin.py:208-214 | the loop collects at most one account per item |
| Accounts.NoAccountsIffNoColon | leaflow_checkin.py:208-217 | the list is empty exactly when no item holds a colon |
| Accounts.LoadAccounts | leaflow_checkin.py:204-219 | raises "未配置 LEAFLOW_ACCOUNTS" exactly when no comma-separated item holds a colon; otherwise returns the non-empty `ParseItems` of the items |
| Accounts.ParseItemsSnoc | leaflow_checkin.py:208-214 | one more item appends that item's contribution to the end of the list |
| Accounts.ParseItemsAppend | leaflow_checkin.py:208-214 | each item is handled on its own and order is kept: parsing a concatenation concatenates the results |
| Accounts.SkipsItemWithoutColon | leaflow_checkin.py:209 | an item without a colon is skipped: removing it anywhere changes nothing |
| Accounts.ParseItemAtFirstColon | leaflow_checkin.py:210-214 | only the first colon separates; the password keeps any later colons, and both halves are stripped |
| Accounts.ParseItemOfItem | leaflow_checkin.py:209-214 | a writable account's item holds a colon and parses back to that account |
| Accounts.ParseItemsOfItems | leaflow_checkin.py:208-214 | the items of writable accounts parse back to exactly those accounts, in order |
| Accounts.ItemsAt | leaflow_checkin.py:208 | the k-th written item is the k-th account's item |
| Accounts.RenderRoundTrip | leaflow_checkin.py:204-219 | a value written out from writable accounts reads back as exactly those accounts, same count and order |
| Accounts.EmptyValueHasNoAccounts | leaflow_checkin.py:206-217 | an unset or empty variable yields no account |
| Accounts.SingleItemValue | leaflow_checkin.py:208-214 | a comma-free value with a colon yields the one account of that item |
| Accounts.ParsesPaddedItem | leaflow_checkin.py:208-214 | an item like `" a@x : p:q "` yields exactly the account `("a@x", "p:q")` |
| Balance.DigitsEnd | leaflow_checkin.py:173 | the end of the digit run starting at a position |
| Balance.NextDigit | leaflow_checkin.py:173 | the first digit at or after a position, with none skipped |
| Balance.FirstMatch | leaflow_checkin.py:173-175 | a match exists exactly when the text has a digit; the span is in bounds, matches `\d+\.?\d*`, and no digit precedes it |
| Balance.FirstMatchIsLeftmost | leaflow_checkin.py:173-175 | every match of the pattern anywhere in the text starts at or after the reported one |
| Balance.FirstMatchIsLongest | leaflow_checkin.py:173 | no longer match starts where the reported one starts (greedy matching) |
| Balance.BalanceText | leaflow_checkin.py:170-179 | "未知" exactly when the body could not be read or has no digit; otherwise the first match followed by " 元" |
| Balance.BalanceExample | leaflow_checkin.py:171-175 | "余额: 12.50 元" gives "12.50 元" |
| Checkin.InitError | leaflow_checkin.py:45-49 | construction succeeds exactly when email and password are non-empty and Chrome starts; empty credentials raise "邮箱和密码不能为空", and otherwise the error of `setup_driver`, if any, is raised with its own text |
| Checkin.FirstClickable | leaflow_checkin.py:112-118 | the position of the first selector that becomes clickable: all earlier ones are not clickable |
| Checkin.LoginOutcome | leaflow_checkin.py:96-145 | a failed login-page load raises that load's error text; once an email field is found the result is the form's outcome; a successful login implies the page loaded, the password field and login button were clickable, and the URL left the login page |
| Checkin.FormOutcome | leaflow_checkin.py:123-142 | after the email field, login succeeds exactly when the password field and login button are clickable and the URL leaves the login page; otherwise it raises the timeout text of the first of those three waits that fails |
| Checkin.LoginOutcomeCases | leaflow_checkin.py:96-145 | login succeeds iff the page loads, some email selector, the password field and the login button are clickable, and the URL leaves the login page; with no email selector it raises "找不到邮箱输入框" |
| Checkin.LocatorsDistinct | leaflow_checkin.py:105-137 | the locators waited on are pairwise different |
| Checkin.EmailFieldIsFirstClickable | leaflow_checkin.py:112-124 | when the login page loads and some email selector becomes clickable, the email is typed into the first such selector |
| Checkin.LaterSelectorsNotTried | leaflow_checkin.py:113-116 | no selector after the first clickable one is waited on |
| Checkin.CheckinMessage | leaflow_checkin.py:152-163 | exactly one of the three messages: "今日已签到" iff the button text holds "已签到"; "签到成功" iff the button lacks the marker and the click succeeds; "签到失败" iff the lookup or the click raised |
| Checkin.CheckinOutcome | leaflow_checkin.py:147-163 | `checkin` raises exactly when the check-in page fails to load, with that load's error text; otherwise it returns the button's message |
| Checkin.BalanceOutcome | leaflow_checkin.py:165-179 | `get_balance` raises exactly when the dashboard fails to load, with that load's error text; otherwise it returns the balance text |
| Checkin.RunOutcome | leaflow_checkin.py:181-188 | success exactly when login, checkin and get_balance all return, reporting the check-in message and balance; otherwise the message is the text of whichever step raised first and the balance is "未知" |
| Checkin.FailedCheckinStillSucceeds | leaflow_checkin.py:181-186 | a check-in that reports "签到失败", whether the button was missing or its click raised, still yields success with the balance read |
| Checkin.LoginTraceActions | leaflow_checkin.py:96-145 | of the recorded requests, `login` only loads the login page, waits, types, and clicks the login button |
| Checkin.QuitOnceAtEnd | leaflow_checkin.py:189-191 | the browser is quit exactly once, as the last request, on every path |
| Checkin.RunCompletion | leaflow_checkin.py:181-191 | `run` raises exactly when `quit()` raises, with that exception's text; otherwise it returns the `try`/`except` result `RunOutcome` |
| Checkin.CheckinFailureSkipsDashboard | leaflow_checkin.py:147-149 | after a successful login, a check-in page that fails to load means the dashboard is never visited and the run reports that page's error with "未知" |
| Checkin.LoginFailureSkipsLaterSteps | leaflow_checkin.py:182-188 | after a failed login neither the check-in page nor the dashboard is visited, nothing is clicked on the check-in page, and the run reports the login error with "未知" |
| Checkin.AlreadyCheckedInDoesNotClick | leaflow_checkin.py:156-157 | when already checked in, the check-in button is never clicked |
| Checkin.Checker.Create | leaflow_checkin.py:38-49 | the constructor raises exactly the init error, otherwise yields a fresh checker for these credentials with an empty trace |
| Checkin.Checker.FindEmailField | leaflow_checkin.py:112-118 | returns the first clickable selector's position, having waited on exactly the selectors up to it |
| Checkin.Checker.SubmitForm | leaflow_checkin.py:123-142 | returns `FormOutcome` and performs exactly `FormTrace` |
| Checkin.Checker.Login | leaflow_checkin.py:96-145 | returns `LoginOutcome` and performs exactly `LoginTrace` |
| Checkin.Checker.Checkin | leaflow_checkin.py:147-163 | returns `CheckinOutcome` and performs exactly `CheckinTrace` |
| Checkin.Checker.GetBalance | leaflow_checkin.py:165-179 | returns `BalanceOutcome` after loading the dashboard |
| Checkin.Checker.Run | leaflow_checkin.py:181-191 | the method returns or raises exactly `RunCompletion` of its browser and extends the trace by exactly `RunTrace`, which ends with the quit |
| Manager.ReportOf | leaflow_checkin.py:228-229 | the tuple carries the account's email, and a failed run reports "未知" as balance |
| Manager.TurnError | leaflow_checkin.py:225-229 | a loop turn raises exactly when the constructor raises or `quit()` raises; the constructor's error comes first |
| Manager.FirstAbort | leaflow_checkin.py:224-229 | the first account whose turn raises: all earlier turns complete |
| Manager.RunAllOutcome | leaflow_checkin.py:221-233 | succeeds exactly when every turn completes; then one tuple per account, in account order, each that account's run; otherwise the error of the first turn that raises |
| Manager.QuitErrorAbortsRun | leaflow_checkin.py:189-191 | an account whose `quit()` raises makes the whole `run_all` raise |
| Manager.EmptyFieldAbortsRun | leaflow_checkin.py:221-227 | an account with empty email or password makes the whole `run_all` raise |
| Manager.MultiAccountManager.Create | leaflow_checkin.py:199-200 | raises "未配置 LEAFLOW_ACCOUNTS" exactly when the value yields no account; otherwise holds the parsed accounts |
| Manager.MultiAccountManager.RunAccount | leaflow_checkin.py:225-230 | one loop turn raises exactly the turn's error, or yields that account's tuple |
| Manager.MultiAccountManager.RunAll | leaflow_checkin.py:221-233 | returns `RunAllOutcome` for the accounts and their browsers |

## Left out

- Reading `LEAFLOW_ACCOUNTS`, `TELEGRAM_BOT_TOKEN`, `TELEGRAM_CHAT_ID` and
  `GITHUB_ACTIONS` from the environment: the account value is a parameter and
  the other variables change nothing modelled.
- `setup_driver`: Chrome options and the injected script are configuration.
  Only whether `setup_driver` raises is modelled (`Browser.launchError`).
  That error covers both starting Chrome and the `execute_script` call after
  it. When `execute_script` raises, the constructor raises with a Chrome
  already started, and nothing ever quits it. The model has no checker, and
  so no trace, for that case, so it does not show this leaked browser.
- `close_popup`: it swallows every exception and returns a flag nobody
  reads, so it changes no outcome. Its coordinate click at offset (10, 10)
  is a browser request that the trace does not record.
- The `find_element` lookups of the check-in button and the page body are
  not recorded in the trace; only their results (`Browser.button`,
  `Browser.body`) are modelled.
- All `time.sleep` calls and the wait timeouts (5, 10 and 20 seconds): time
  is not modelled. A wait either succeeds or raises its timeout text.
- `Checkin.Checker.SubmitForm`: `clear()`, `send_keys` and the login
  button's `click()` are taken not to raise. An unexpected WebDriver error
  at those points is not modelled.
- The URL wait after the login click is the boolean `leavesLogin`, and it
  is not recorded in the trace: the model
  does not say which URL was reached.
- `Balance.FirstMatch`: `\d` is ASCII `0`-`9`. Python's `\d` also matches
  other Unicode decimal digits.
- `str(e)` of an exception is its message. `Browser.timeoutText` and the
  navigation error texts stand for whatever WebDriver reports.
- `main` and its logging are output only. The `requests` import and the
  Telegram token and chat fields are unused: the script sends no
  notification.
- RunAll: when a turn raises, the accounts before it have already
  run, but `RunAllOutcome` gives only the error. The manager does not
  expose those earlier runs' browser traces.
- Concurrency and any browser state shared between accounts: each account
  gets its own scripted browser.

=== FILE: accounts.dfy ===
/** `MultiAccountManager.load_accounts`: reading the account list out of the
    LEAFLOW_ACCOUNTS value `email1:pw1,email2:pw2,...`. The environment read is
    replaced by the raw value, passed in as a parameter. */
module Accounts {
  import opened Outcomes
  import opened Text

  datatype Account = Account(email: string, password: string)

  /** The message of the ValueError raised when no item is usable. */
  const NotConfigured: string := "未配置 LEAFLOW_ACCOUNTS"

  /** One configuration item holding a colon: split at its first colon, both
      halves stripped of surrounding whitespace. */
  function ParseItem(item: string): (a: Account)
    requires ':' in item
    ensures Stripped(a.email) && Stripped(a.password)
    ensures |a.email| + |a.password| < |item|
  {
    var halves := SplitFirst(item, ':');
    Account(Strip(halves.0), Strip(halves.1))
  }

  /** The accounts the loop of `load_accounts` collects from `items`, in order:
      items without a colon contribute nothing. */
  function ParseItems(items: seq<string>): (accounts: seq<Account>)
    ensures |accounts| <= |items|
  {
    if items == [] then
      []
    else
      ParseItems(items[..|items| - 1]) + Collected(items[|items| - 1])
  }

  /** No account is collected exactly when no item holds a colon. */
  lemma {:induction false} NoAccountsIffNoColon(items: seq<string>)
    ensures ParseItems(items) == [] <==> forall k :: 0 <= k < |items| ==> ':' !in items[k]
  {
    if items != [] {
      var init := items[..|items| - 1];
      NoAccountsIffNoColon(init);
      assert forall k :: 0 <= k < |init| ==> init[k] == items[k];
    }
  }

  /** What one item adds to the list: its account if it holds a colon. */
  function Collected(item: string): (accounts: seq<Account>)
    ensures |accounts| <= 1
    ensures accounts == [] <==> ':' !in item
  {
    if ':' in item then [ParseItem(item)] else []
  }

  /** The loop over `raw.split(",")`, followed by the emptiness check. */
  method LoadAccounts(raw: string) returns (r: Outcome<seq<Account>>)
    ensures r.Raised? <==> forall k :: 0 <= k < |Split(raw, ',')| ==> ':' !in Split(raw, ',')[k]
    ensures r.Raised? ==> r.message == NotConfigured
    ensures r.Ok? ==> r.value == ParseItems(Split(raw, ',')) && r.value != []
  {
    var accounts: seq<Account> := [];
    var items := Split(raw, ',');
    for i := 0 to |items|
      invariant accounts == ParseItems(items[..i])
    {
      assert items[..i + 1] == items[..i] + [items[i]];
      ParseItemsSnoc(items[..i], items[i]);
      if ':' in items[i] {
        accounts := accounts + [ParseItem(items[i])];
      }
    }
    assert items[..|items|] == items;
    NoAccountsIffNoColon(items);
    if accounts == [] {
      return Raised(NotConfigured);
    }
    return Ok(accounts);
  }

  lemma ParseItemsSnoc(items: seq<string>, x: string)
    ensures ParseItems(items + [x]) == ParseItems(items) + Collected(x)
  {
    assert (items + [x])[..|items|] == items;
  }

  /** Parsing distributes over concatenation of item lists: each item is
      handled on its own and the accounts keep the items' order. */
  lemma {:induction false} ParseItemsAppend(a: seq<string>, b: seq<string>)
    ensures ParseItems(a + b) == ParseItems(a) + ParseItems(b)
    decreases |b|
  {
    if b == [] {
      assert a + b == a;
    } else {
      var init, x := b[..|b| - 1], b[|b| - 1];
      assert b == init + [x];
      calc {
        ParseItems(a + b);
        { assert a + b == (a + init) + [x]; }
        ParseItems((a + init) + [x]);
        { ParseItemsSnoc(a + init, x); }
        ParseItems(a + init) + Collected(x);
        { ParseItemsAppend(a, init); }
        ParseItems(a) + ParseItems(init) + Collected(x);
        { ConcatAssoc(ParseItems(a), ParseItems(init), Collected(x)); }
        ParseItems(a) + (ParseItems(init) + Collected(x));
        { ParseItemsSnoc(init, x); }
        ParseItems(a) + ParseItems(b);
      }
    }
  }

  /** An item with no colon is skipped, not rejected: removing it changes nothing. */
  lemma SkipsItemWithoutColon(a: seq<string>, x: string, b: seq<string>)
    requires ':' !in x
    ensures ParseItems(a + [x] + b) == ParseItems(a + b)
  {
    calc {
      ParseItems(a + [x] + b);
      { ParseItemsAppend(a + [x], b); }
      ParseItems(a + [x]) + ParseItems(b);
      { ParseItemsSnoc(a, x); assert ParseItems(a) + Collected(x) == ParseItems(a); }
      ParseItems(a) + ParseItems(b);
      { ParseItemsAppend(a, b); }
      ParseItems(a + b);
    }
  }

  /** Only the first colon separates: the password keeps any later colons. */
  lemma ParseItemAtFirstColon(email: string, password: string)
    requires ':' !in email
    ensures ParseItem(email + [':'] + password) == Account(Strip(email), Strip(password))
  {
    SplitFirstOf(email, ':', password);
  }

  /** An account that survives writing out and reading back. */
  predicate Writable(a: Account) {
    ',' !in a.email && ':' !in a.email && ',' !in a.password
    && Stripped(a.email) && Stripped(a.password)
  }

  function Item(a: Account): string {
    a.email + [':'] + a.password
  }

  function Items(accounts: seq<Account>): (items: seq<string>)
    ensures |items| == |accounts|
  {
    if accounts == [] then [] else Items(accounts[..|accounts| - 1]) + [Item(accounts[|accounts| - 1])]
  }

  /** The LEAFLOW_ACCOUNTS value listing `accounts` in order. */
  function Render(accounts: seq<Account>): string {
    Join(Items(accounts), ',')
  }

  lemma ParseItemOfItem(a: Account)
    requires Writable(a)
    ensures ':' in Item(a) && ParseItem(Item(a)) == a
  {
    assert Item(a)[|a.email|] == ':';
    ParseItemAtFirstColon(a.email, a.password);
  }

  lemma {:induction false} ParseItemsOfItems(accounts: seq<Account>)
    requires forall k :: 0 <= k < |accounts| ==> Writable(accounts[k])
    ensures ParseItems(Items(accounts)) == accounts
  {
    if accounts != [] {
      var n := |accounts| - 1;
      var init, a := accounts[..n], accounts[n];
      assert Writable(a);
      ParseItemsOfItems(init);
      ParseItemOfItem(a);
      assert Items(accounts) == Items(init) + [Item(a)];
      ParseItemsSnoc(Items(init), Item(a));
      assert Collected(Item(a)) == [a];
      SplitLast(accounts);
    }
  }

  /** Configuration order and count are preserved: a value written from N
      well-formed accounts reads back as exactly those N accounts, in order. */
  lemma RenderRoundTrip(accounts: seq<Account>)
    requires forall k :: 0 <= k < |accounts| ==> Writable(accounts[k])
    ensures ParseItems(Split(Render(accounts), ',')) == accounts
  {
    var items := Items(accounts);
    if accounts == [] {
      assert Split(Render(accounts), ',') == [""];
    } else {
      forall k | 0 <= k < |items| ensures ',' !in items[k] {
        ItemsAt(accounts, k);
      }
      SplitJoin(items, ',');
      ParseItemsOfItems(accounts);
    }
  }

  lemma SplitLast<T>(s: seq<T>)
    requires s != []
    ensures s == s[..|s| - 1] + [s[|s| - 1]]
  {
  }

  lemma {:induction false} ItemsAt(accounts: seq<Account>, k: nat)
    requires k < |accounts|
    ensures Items(accounts)[k] == Item(accounts[k])
  {
    var n := |accounts| - 1;
    if k < n {
      ItemsAt(accounts[..n], k);
    }
  }

  /** An unset or empty variable gives the single item "" and so no account. */
  lemma EmptyValueHasNoAccounts()
    ensures ParseItems(Split("", ',')) == []
  {
  }

  /** One item, as in `" a@x : p:q "`: whitespace around either half is
      dropped, and a colon inside the password survives. */
  lemma ParsesPaddedItem(lead: string, email: string, gap1: string, gap2: string,
                         password: string, trail: string)
    requires AllSpace(lead) && AllSpace(gap1) && AllSpace(gap2) && AllSpace(trail)
    requires Stripped(email) && Stripped(password)
    requires ':' !in email && ',' !in email && ',' !in password
    ensures ParseItems(Split(lead + email + gap1 + [':'] + gap2 + password + trail, ','))
         == [Account(email, password)]
  {
    NoCommaInPaddedItem(lead, email, gap1, gap2, password, trail);
    ParsePaddedItem(lead, email, gap1, gap2, password, trail);
    SingleItemValue(lead + email + gap1 + [':'] + gap2 + password + trail);
  }

  /** A value without commas is a single item. */
  lemma SingleItemValue(s: string)
    requires ',' !in s && ':' in s
    ensures ParseItems(Split(s, ',')) == [ParseItem(s)]
  {
    SplitWithoutSeparator(s, ',');
    ParseItemsSingle(s);
  }

  lemma ParsePaddedItem(lead: string, email: string, gap1: string, gap2: string,
                        password: string, trail: string)
    requires AllSpace(lead) && AllSpace(gap1) && AllSpace(gap2) && AllSpace(trail)
    requires Stripped(email) && Stripped(password) && ':' !in email
    ensures ':' in lead + email + gap1 + [':'] + gap2 + password + trail
    ensures ParseItem(lead + email + gap1 + [':'] + gap2 + password + trail)
         == Account(email, password)
  {
    var p := gap2 + password + trail;
    var e := lead + email + gap1 + [':'];
    ConcatAssoc(e, gap2, password);
    ConcatAssoc(e, gap2 + password, trail);
    ParsePaddedHalves(lead, email, gap1, p);
    StripPadded(gap2, password, trail);
  }

  lemma NoCommaInPaddedItem(lead: string, email: string, gap1: string, gap2: string,
                            password: string, trail: string)
    requires AllSpace(lead) && AllSpace(gap1) && AllSpace(gap2) && AllSpace(trail)
    requires ',' !in email && ',' !in password
    ensures ',' !in lead + email + gap1 + [':'] + gap2 + password + trail
  {
    var s := lead + email + gap1 + [':'] + gap2 + password + trail;
    forall k | 0 <= k < |s| ensures s[k] != ',' {
      assert s[k] in lead || s[k] in email || s[k] in gap1 || s[k] == ':'
          || s[k] in gap2 || s[k] in password || s[k] in trail;
    }
  }

  lemma ParsePaddedHalves(lead: string, email: string, gap1: string, p: string)
    requires AllSpace(lead) && AllSpace(gap1) && Stripped(email) && ':' !in email
    ensures ':' in lead + email + gap1 + [':'] + p
    ensures ParseItem(lead + email + gap1 + [':'] + p) == Account(email, Strip(p))
  {
    var e := lead + email + gap1;
    assert lead + email + gap1 + [':'] + p == e + [':'] + p;
    assert ':' !in e by {
      forall k | 0 <= k < |e| ensures e[k] != ':' {
        assert e[k] in lead || e[k] in email || e[k] in gap1;
      }
    }
    assert (e + [':'] + p)[|e|] == ':';
    ParseItemAtFirstColon(e, p);
    StripPadded(lead, email, gap1);
  }

  lemma ParseItemsSingle(x: string)
    requires ':' in x
    ensures ParseItems([x]) == [ParseItem(x)]
  {
    assert [x][..0] == [];
  }
}

=== FILE: balance.dfy ===
/** The text part of `LeaflowAutoCheckin.get_balance`: the first match of the
    regular expression `\d+\.?\d*` in the dashboard text, followed by " 元",
    or "未知" when there is none. Digits are the ASCII digits. */
module Balance {
  import opened Outcomes

  /** The sentinel both `get_balance` and `run` report for an unknown balance. */
  const Unknown: string := "未知"
  const Currency: string := " 元"

  predicate IsDigit(c: char) {
    '0' <= c <= '9'
  }

  /** `w` belongs to the language of `\d+\.?\d*`: it starts with a digit and
      otherwise holds digits and at most one dot. */
  ghost predicate InPattern(w: string) {
    && |w| > 0
    && IsDigit(w[0])
    && (forall k :: 0 <= k < |w| ==> IsDigit(w[k]) || w[k] == '.')
    && (forall a, b :: 0 <= a < b < |w| && w[a] == '.' ==> w[b] != '.')
  }

  /** The end of the run of digits that starts at `i`. */
  function DigitsEnd(s: string, i: nat): (j: nat)
    requires i <= |s|
    ensures i <= j <= |s|
    ensures forall k :: i <= k < j ==> IsDigit(s[k])
    ensures j == |s| || !IsDigit(s[j])
    decreases |s| - i
  {
    if i < |s| && IsDigit(s[i]) then DigitsEnd(s, i + 1) else i
  }

  /** The first digit at or after `i`, or `|s|`. */
  function NextDigit(s: string, i: nat): (j: nat)
    requires i <= |s|
    ensures i <= j <= |s|
    ensures forall k :: i <= k < j ==> !IsDigit(s[k])
    ensures j < |s| ==> IsDigit(s[j])
    decreases |s| - i
  {
    if i == |s| || IsDigit(s[i]) then i else NextDigit(s, i + 1)
  }

  /** Where the text of a match lies: `s[start..end]`. */
  datatype Span = Span(start: nat, end: nat)

  /** The match `re.findall(r"\d+\.?\d*", s)[0]` reports, scanning left to
      right: the first digit, its digit run, then a dot and a second run if a
      dot follows. The contract says that a match exists exactly when some
      digit does, that the span matches the pattern, and that no match can
      start earlier (every match starts with a digit). */
  function FirstMatch(s: string): (m: Option<Span>)
    ensures m.None? <==> forall k :: 0 <= k < |s| ==> !IsDigit(s[k])
    ensures m.Some? ==> m.value.start < m.value.end <= |s|
    ensures m.Some? ==> InPattern(s[m.value.start..m.value.end])
    ensures m.Some? ==> forall k :: 0 <= k < m.value.start ==> !IsDigit(s[k])
  {
    var i := NextDigit(s, 0);
    if i == |s| then
      None
    else
      var j := DigitsEnd(s, i);
      if j < |s| && s[j] == '.' then
        var e := DigitsEnd(s, j + 1);
        ghost var w := s[i..e];
        assert forall k :: 0 <= k < |w| ==> w[k] == s[i + k];
        Some(Span(i, e))
      else
        ghost var w := s[i..j];
        assert forall k :: 0 <= k < |w| ==> w[k] == s[i + k];
        Some(Span(i, j))
  }

  /** Leftmost: every match of the pattern anywhere in `s` starts at or after
      the reported one. */
  lemma FirstMatchIsLeftmost(s: string, a: nat, e: nat)
    requires a <= e <= |s| && InPattern(s[a..e])
    ensures FirstMatch(s).Some? && FirstMatch(s).value.start <= a
  {
    assert s[a..e][0] == s[a];
  }

  /** Maximal munch: no longer match starts where the reported one does. */
  lemma FirstMatchIsLongest(s: string, e: nat)
    requires FirstMatch(s).Some?
    requires FirstMatch(s).value.end < e <= |s|
    ensures !InPattern(s[FirstMatch(s).value.start..e])
  {
    var i := NextDigit(s, 0);
    var j := DigitsEnd(s, i);
    var end := FirstMatch(s).value.end;
    var w := s[i..e];
    assert w[end - i] == s[end];
    if j < |s| && s[j] == '.' {
      assert w[j - i] == '.';
      assert !IsDigit(s[end]);
    } else {
      assert end == j;
    }
  }

  /** What `get_balance` returns for the dashboard text; `None` stands for a
      read of the page body that raised, which the method swallows. */
  function BalanceText(body: Option<string>): (r: string)
    ensures r == Unknown <==>
      body.None? || forall k :: 0 <= k < |body.value| ==> !IsDigit(body.value[k])
    ensures r != Unknown ==>
      var m := FirstMatch(body.value).value;
      r == body.value[m.start..m.end] + Currency
  {
    match body
    case None => Unknown
    case Some(text) =>
      match FirstMatch(text)
      case None => Unknown
      case Some(m) => text[m.start..m.end] + Currency
  }

  /** A dashboard line such as "余额: 12.50 元" gives "12.50 元". */
  lemma BalanceExample()
    ensures BalanceText(Some("余额: 12.50 元")) == "12.50 元"
  {
    var s := "余额: 12.50 元";
    assert NextDigit(s, 0) == 4;
    assert DigitsEnd(s, 4) == 6;
    assert DigitsEnd(s, 7) == 9;
  }
}

=== FILE: checker.dfy ===
/** `LeaflowAutoCheckin`: one account's session, from the constructor's check
    through `login`, `checkin` and `get_balance` to `run`, which releases the
    browser on every path. The browser is an oracle of scripted answers
    (`Browser`). The object's `trace` records, in order, the page loads, the
    waits for an element, the typing, the clicks on the login and check-in
    buttons and the final quit, so that "tried", "clicked", "visited" and
    "quit" are statements about that trace. The wait for the URL to leave the
    login page, the coordinate click of `close_popup` and the element lookups
    of `checkin` and `get_balance` are not recorded. */
module Checkin {
  import opened Outcomes
  import opened Text
  import Balance

  datatype Page = LoginPage | CheckinPage | Dashboard

  /** What `find_element` for the check-in button yields on the check-in page. */
  datatype ButtonProbe =
    | NoButton                                 // the lookup (or reading its text) raised
    | Button(text: string, clickRaises: bool)  // the button's text, and whether click() raises

  /** The condition a `WebDriverWait` waits for after the email field: an
      element becoming clickable, or the URL leaving the login page. */
  datatype Wait = Clickable(locator: string) | LeavesLogin

  /** The scripted answers of one account's browser. */
  datatype Browser = Browser(
    launchError: Option<string>,   // starting Chrome raised, with this text
    navError: map<Page, string>,   // driver.get of these pages raised, with this text
    clickable: set<string>,        // locators that become clickable within their wait
    leavesLogin: bool,             // the URL stops containing "login" within the wait
    timeoutText: Wait -> string,   // str() of the timeout of each wait
    button: ButtonProbe,
    body: Option<string>,          // the dashboard's body text; None when reading it raised
    quitError: Option<string>)     // driver.quit() raised, with this text

  /** One request the script makes of the browser. */
  datatype Action =
    | Visit(page: Page)                      // driver.get
    | Await(locator: string)                 // wait_clickable
    | Type(locator: string, text: string)    // clear() and send_keys(text)
    | Click(locator: string)
    | Quit                                   // driver.quit()

  /** The email field's candidate selectors, in the order they are tried. */
  const EmailSelectors: seq<string> := [
    "input[type='email']",
    "input[type='text']",
    "input[name='email']",
    "input[name='username']"
  ]
  const PasswordSelector: string := "input[type='password']"
  const LoginButton: string := "//button[contains(text(), '登录') or contains(text(), 'Login')]"
  const CheckinButton: string := "//button[contains(text(), '签到')]"

  const EmptyCredentials: string := "邮箱和密码不能为空"
  const NoEmailField: string := "找不到邮箱输入框"
  const DoneMarker: string := "已签到"
  const AlreadyCheckedIn: string := "今日已签到"
  const CheckedIn: string := "签到成功"
  const CheckinFailed: string := "签到失败"

  /** The ValueError of the constructor, else whatever starting Chrome raised. */
  function InitError(email: string, password: string, b: Browser): (e: Option<string>)
    ensures e.None? <==> email != [] && password != [] && b.launchError.None?
    ensures email == [] || password == [] ==> e == Some(EmptyCredentials)
    ensures email != [] && password != [] ==> e == b.launchError
  {
    if email == [] || password == [] then Some(EmptyCredentials) else b.launchError
  }

  /** The position of the first locator in `locators` that becomes clickable,
      or `|locators|` when none does. */
  function FirstClickable(locators: seq<string>, clickable: set<string>): (k: nat)
    ensures k <= |locators|
    ensures forall j :: 0 <= j < k ==> locators[j] !in clickable
    ensures k < |locators| ==> locators[k] in clickable
  {
    if locators == [] || locators[0] in clickable then 0
    else 1 + FirstClickable(locators[1..], clickable)
  }

  function Awaits(locators: seq<string>): (t: seq<Action>)
    ensures |t| == |locators|
    ensures forall k :: 0 <= k < |t| ==> t[k] == Await(locators[k])
  {
    seq(|locators|, k requires 0 <= k < |locators| => Await(locators[k]))
  }

  /** What `login` returns or raises. */
  function LoginOutcome(b: Browser): (r: Outcome<()>)
    ensures r.Ok? ==> LoginPage !in b.navError && b.leavesLogin
    ensures r.Ok? ==> PasswordSelector in b.clickable && LoginButton in b.clickable
    ensures LoginPage in b.navError ==> r == Raised(b.navError[LoginPage])
    ensures LoginPage !in b.navError && FirstClickable(EmailSelectors, b.clickable) < |EmailSelectors|
      ==> r == FormOutcome(b)
  {
    if LoginPage in b.navError then Raised(b.navError[LoginPage])
    else if FirstClickable(EmailSelectors, b.clickable) == |EmailSelectors| then Raised(NoEmailField)
    else FormOutcome(b)
  }

  /** What the part of `login` after the email field raises, if anything:
      a wait that times out. */
  function FormOutcome(b: Browser): (r: Outcome<()>)
    ensures r.Ok? <==> PasswordSelector in b.clickable && LoginButton in b.clickable && b.leavesLogin
    ensures PasswordSelector !in b.clickable ==> r == Raised(b.timeoutText(Clickable(PasswordSelector)))
    ensures PasswordSelector in b.clickable && LoginButton !in b.clickable
      ==> r == Raised(b.timeoutText(Clickable(LoginButton)))
    ensures PasswordSelector in b.clickable && LoginButton in b.clickable && !b.leavesLogin
      ==> r == Raised(b.timeoutText(LeavesLogin))
  {
    if PasswordSelector !in b.clickable then Raised(b.timeoutText(Clickable(PasswordSelector)))
    else if LoginButton !in b.clickable then Raised(b.timeoutText(Clickable(LoginButton)))
    else if !b.leavesLogin then Raised(b.timeoutText(LeavesLogin))
    else Ok(())
  }

  /** Login succeeds exactly when the page loads, some email selector, the
      password field and the login button all become clickable, and the
      browser then leaves the login page; when no email selector resolves,
      it raises "找不到邮箱输入框". */
  lemma LoginOutcomeCases(b: Browser)
    ensures LoginOutcome(b).Ok? <==>
      && LoginPage !in b.navError
      && (exists k :: 0 <= k < |EmailSelectors| && EmailSelectors[k] in b.clickable)
      && PasswordSelector in b.clickable && LoginButton in b.clickable && b.leavesLogin
    ensures LoginPage !in b.navError
      && (forall k :: 0 <= k < |EmailSelectors| ==> EmailSelectors[k] !in b.clickable)
      ==> LoginOutcome(b) == Raised(NoEmailField)
  {
    var k := FirstClickable(EmailSelectors, b.clickable);
    if k < |EmailSelectors| {
      assert EmailSelectors[k] in b.clickable;
    }
  }

  /** The waits of the email-selector loop when it stops at position `k`. */
  function SearchTrace(k: nat): seq<Action>
    requires k <= |EmailSelectors|
  {
    Awaits(if k < |EmailSelectors| then EmailSelectors[..k + 1] else EmailSelectors)
  }

  /** The requests of `login` once the email field `field` is found. */
  function FormTrace(b: Browser, email: string, password: string, field: string): seq<Action> {
    [Type(field, email), Await(PasswordSelector)] +
    if PasswordSelector !in b.clickable then []
    else
      [Type(PasswordSelector, password), Await(LoginButton)] +
      if LoginButton !in b.clickable then [] else [Click(LoginButton)]
  }

  /** The browser requests `login` makes, up to where it returns or raises. */
  function LoginTrace(b: Browser, email: string, password: string): seq<Action> {
    var k := FirstClickable(EmailSelectors, b.clickable);
    [Visit(LoginPage)] +
    if LoginPage in b.navError then []
    else SearchTrace(k) + if k == |EmailSelectors| then [] else FormTrace(b, email, password, EmailSelectors[k])
  }

  /** The locators `login` waits on are pairwise different. */
  lemma LocatorsDistinct()
    ensures forall i, j :: 0 <= i < j < |EmailSelectors| ==> EmailSelectors[i] != EmailSelectors[j]
    ensures PasswordSelector !in EmailSelectors && LoginButton !in EmailSelectors
  {
    assert EmailSelectors[0][6] != EmailSelectors[2][6];
  }

  /** The email goes into the first selector, in list order, that becomes
      clickable. */
  lemma EmailFieldIsFirstClickable(b: Browser, email: string, password: string)
    requires LoginPage !in b.navError
    requires FirstClickable(EmailSelectors, b.clickable) < |EmailSelectors|
    ensures Type(EmailSelectors[FirstClickable(EmailSelectors, b.clickable)], email)
            in LoginTrace(b, email, password)
  {
    var k := FirstClickable(EmailSelectors, b.clickable);
    var form := FormTrace(b, email, password, EmailSelectors[k]);
    assert LoginTrace(b, email, password) == [Visit(LoginPage)] + SearchTrace(k) + form;
    assert form[0] == Type(EmailSelectors[k], email);
  }

  /** Once a selector becomes clickable, no later selector is waited on. */
  lemma LaterSelectorsNotTried(b: Browser, email: string, password: string, j: nat)
    requires FirstClickable(EmailSelectors, b.clickable) < j < |EmailSelectors|
    ensures Await(EmailSelectors[j]) !in LoginTrace(b, email, password)
  {
    var k := FirstClickable(EmailSelectors, b.clickable);
    if LoginPage !in b.navError {
      var search := SearchTrace(k);
      var form := FormTrace(b, email, password, EmailSelectors[k]);
      assert LoginTrace(b, email, password) == [Visit(LoginPage)] + search + form;
      LocatorsDistinct();
      assert forall i | 0 <= i < |search| :: search[i] == Await(EmailSelectors[i]);
      assert Await(EmailSelectors[j]) !in search;
      assert forall a | a in form :: a.Type? || a == Await(PasswordSelector) || a == Await(LoginButton) || a.Click?;
    }
  }

  /** The message `checkin` returns once the check-in page has loaded: exactly
      one of three, and a click only happens when the button lacks the marker. */
  function CheckinMessage(button: ButtonProbe): (m: string)
    ensures m in {AlreadyCheckedIn, CheckedIn, CheckinFailed}
    ensures m == AlreadyCheckedIn <==> button.Button? && Contains(button.text, DoneMarker)
    ensures m == CheckedIn <==>
      button.Button? && !Contains(button.text, DoneMarker) && !button.clickRaises
    ensures m == CheckinFailed <==>
      button.NoButton? || (!Contains(button.text, DoneMarker) && button.clickRaises)
  {
    match button
    case NoButton => CheckinFailed
    case Button(text, clickRaises) =>
      if Contains(text, DoneMarker) then AlreadyCheckedIn
      else if clickRaises then CheckinFailed
      else CheckedIn
  }

  /** The check-in button is clicked: it was found without the marker. */
  predicate Presses(button: ButtonProbe) {
    button.Button? && !Contains(button.text, DoneMarker)
  }

  /** What `checkin` returns or raises; only loading the page can raise. */
  function CheckinOutcome(b: Browser): (r: Outcome<string>)
    ensures r.Raised? <==> CheckinPage in b.navError
    ensures r.Raised? ==> r.message == b.navError[CheckinPage]
    ensures r.Ok? ==> r.value == CheckinMessage(b.button)
  {
    if CheckinPage in b.navError then Raised(b.navError[CheckinPage]) else Ok(CheckinMessage(b.button))
  }

  function CheckinTrace(b: Browser): seq<Action> {
    [Visit(CheckinPage)] +
    if CheckinPage !in b.navError && Presses(b.button) then [Click(CheckinButton)] else []
  }

  /** What `get_balance` returns or raises; only loading the page can raise. */
  function BalanceOutcome(b: Browser): (r: Outcome<string>)
    ensures r.Raised? <==> Dashboard in b.navError
    ensures r.Raised? ==> r.message == b.navError[Dashboard]
    ensures r.Ok? ==> r.value == Balance.BalanceText(b.body)
  {
    if Dashboard in b.navError then Raised(b.navError[Dashboard]) else Ok(Balance.BalanceText(b.body))
  }

  datatype RunResult = RunResult(succeeded: bool, message: string, balance: string)

  /** What the `try`/`except` of `run` yields: the first exception of login, checkin or get_balance
      becomes `(False, str(e), "未知")`; otherwise `(True, message, balance)`,
      also when the check-in message is the failure one. */
  function RunOutcome(b: Browser): (r: RunResult)
    ensures r.succeeded <==> LoginOutcome(b).Ok? && CheckinOutcome(b).Ok? && BalanceOutcome(b).Ok?
    ensures r.succeeded ==>
      r.message == CheckinMessage(b.button) && r.balance == Balance.BalanceText(b.body)
    ensures !r.succeeded ==> r.balance == Balance.Unknown
    ensures LoginOutcome(b).Raised? ==> r.message == LoginOutcome(b).message
    ensures LoginOutcome(b).Ok? && CheckinOutcome(b).Raised? ==> r.message == CheckinOutcome(b).message
    ensures LoginOutcome(b).Ok? && CheckinOutcome(b).Ok? && BalanceOutcome(b).Raised?
      ==> r.message == BalanceOutcome(b).message
  {
    match LoginOutcome(b)
    case Raised(e) => RunResult(false, e, Balance.Unknown)
    case Ok(_) =>
      match CheckinOutcome(b)
      case Raised(e) => RunResult(false, e, Balance.Unknown)
      case Ok(message) =>
        match BalanceOutcome(b)
        case Raised(e) => RunResult(false, e, Balance.Unknown)
        case Ok(balance) => RunResult(true, message, balance)
  }

  /** What `run` returns or raises once its `finally` clause has quit the
      driver: an exception of `quit()` replaces the result. */
  function RunCompletion(b: Browser): (r: Outcome<RunResult>)
    ensures r.Raised? <==> b.quitError.Some?
    ensures r.Raised? ==> r.message == b.quitError.value
    ensures r.Ok? ==> r.value == RunOutcome(b)
  {
    if b.quitError.Some? then Raised(b.quitError.value) else Ok(RunOutcome(b))
  }

  /** A check-in that reports "签到失败", because the button was not found or
      its click raised, is not a failure of the run: the flag stays true and
      the balance is still read. */
  lemma FailedCheckinStillSucceeds(b: Browser)
    requires LoginOutcome(b).Ok? && CheckinPage !in b.navError && Dashboard !in b.navError
    requires CheckinMessage(b.button) == CheckinFailed
    ensures RunOutcome(b) == RunResult(true, CheckinFailed, Balance.BalanceText(b.body))
  {
  }

  /** The browser requests of `run`: each step only after the previous one
      returned, and the driver quit at the end whatever happened. */
  function RunTrace(b: Browser, email: string, password: string): seq<Action> {
    LoginTrace(b, email, password) +
    (if LoginOutcome(b).Raised? then []
     else CheckinTrace(b) + if CheckinOutcome(b).Raised? then [] else [Visit(Dashboard)]) +
    [Quit]
  }

  /** `login` only loads the login page, waits, types, and clicks the login
      button. */
  lemma LoginTraceActions(b: Browser, email: string, password: string)
    ensures forall a | a in LoginTrace(b, email, password) ::
      a == Visit(LoginPage) || a.Await? || a.Type? || a == Click(LoginButton)
  {
    var k := FirstClickable(EmailSelectors, b.clickable);
    if LoginPage !in b.navError {
      var search := SearchTrace(k);
      assert forall a | a in search :: a.Await?;
      if k < |EmailSelectors| {
        var form := FormTrace(b, email, password, EmailSelectors[k]);
        assert LoginTrace(b, email, password) == [Visit(LoginPage)] + search + form;
      } else {
        assert LoginTrace(b, email, password) == [Visit(LoginPage)] + search;
      }
    }
  }

  /** The driver is quit exactly once, as the last request, on every path. */
  lemma QuitOnceAtEnd(b: Browser, email: string, password: string)
    ensures var t := RunTrace(b, email, password);
      |t| > 0 && t[|t| - 1] == Quit && forall i :: 0 <= i < |t| - 1 ==> t[i] != Quit
  {
    var login := LoginTrace(b, email, password);
    var rest := if LoginOutcome(b).Raised? then []
      else CheckinTrace(b) + if CheckinOutcome(b).Raised? then [] else [Visit(Dashboard)];
    var t := RunTrace(b, email, password);
    assert t == (login + rest) + [Quit];
    LoginTraceActions(b, email, password);
    assert Quit !in login;
    assert Quit !in rest;
    assert Quit !in login + rest;
  }

  /** A failed login short-circuits: neither the check-in page nor the
      dashboard is visited, and the check-in button is never clicked. */
  lemma LoginFailureSkipsLaterSteps(b: Browser, email: string, password: string)
    requires LoginOutcome(b).Raised?
    ensures Visit(CheckinPage) !in RunTrace(b, email, password)
    ensures Visit(Dashboard) !in RunTrace(b, email, password)
    ensures Click(CheckinButton) !in RunTrace(b, email, password)
    ensures RunOutcome(b) == RunResult(false, LoginOutcome(b).message, Balance.Unknown)
  {
    LoginTraceActions(b, email, password);
    assert RunTrace(b, email, password) == LoginTrace(b, email, password) + [Quit];
    assert CheckinButton != LoginButton by { assert |CheckinButton| < |LoginButton|; }
  }

  /** A check-in page that fails to load short-circuits too: the dashboard is
      not visited and the run reports that page's error with "未知". */
  lemma CheckinFailureSkipsDashboard(b: Browser, email: string, password: string)
    requires LoginOutcome(b).Ok? && CheckinOutcome(b).Raised?
    ensures Visit(Dashboard) !in RunTrace(b, email, password)
    ensures RunOutcome(b) == RunResult(false, b.navError[CheckinPage], Balance.Unknown)
  {
    LoginTraceActions(b, email, password);
    assert RunTrace(b, email, password) == LoginTrace(b, email, password) + CheckinTrace(b) + [Quit];
  }

  /** Already checked in today: no click on the check-in button happens. */
  lemma AlreadyCheckedInDoesNotClick(b: Browser, email: string, password: string)
    requires CheckinMessage(b.button) == AlreadyCheckedIn
    ensures Click(CheckinButton) !in RunTrace(b, email, password)
  {
    LoginTraceActions(b, email, password);
    assert CheckinButton != LoginButton by { assert |CheckinButton| < |LoginButton|; }
  }

  class Checker {
    const email: string
    const password: string
    const browser: Browser
    var trace: seq<Action>

    /** The object once the constructor's check has passed and Chrome is up. */
    constructor (email: string, password: string, browser: Browser)
      requires InitError(email, password, browser).None?
      ensures this.email == email && this.password == password && this.browser == browser
      ensures trace == []
    {
      this.email := email;
      this.password := password;
      this.browser := browser;
      trace := [];
    }

    /** `LeaflowAutoCheckin(email, password)`: raises on an empty email or
        password, or when Chrome cannot be started. */
    static method Create(email: string, password: string, browser: Browser)
      returns (r: Outcome<Checker>)
      ensures r.Raised? <==> InitError(email, password, browser).Some?
      ensures r.Raised? ==> r.message == InitError(email, password, browser).value
      ensures r.Ok? ==> fresh(r.value) && r.value.trace == []
      ensures r.Ok? ==>
        r.value.email == email && r.value.password == password && r.value.browser == browser
    {
      if email == [] || password == [] {
        return Raised(EmptyCredentials);
      }
      if browser.launchError.Some? {
        return Raised(browser.launchError.value);
      }
      var c := new Checker(email, password, browser);
      return Ok(c);
    }

    /** The loop of `login` over the email selectors: each is waited on in
        turn until one becomes clickable; returns its position, or
        `|EmailSelectors|` when none does. */
    method FindEmailField() returns (k: nat)
      modifies this
      ensures k == FirstClickable(EmailSelectors, browser.clickable)
      ensures trace == old(trace) + SearchTrace(k)
    {
      k := 0;
      while k < |EmailSelectors|
        invariant k <= |EmailSelectors|
        invariant forall j :: 0 <= j < k ==> EmailSelectors[j] !in browser.clickable
        invariant trace == old(trace) + Awaits(EmailSelectors[..k])
      {
        trace := trace + [Await(EmailSelectors[k])];
        assert Awaits(EmailSelectors[..k + 1]) == Awaits(EmailSelectors[..k]) + [Await(EmailSelectors[k])];
        if EmailSelectors[k] in browser.clickable {
          return;
        }
        k := k + 1;
      }
      assert EmailSelectors[..k] == EmailSelectors;
    }

    /** The rest of `login` once the email field is found: fill in both
        fields, click the login button, wait to leave the login page. */
    method SubmitForm(field: string) returns (r: Outcome<()>)
      modifies this
      ensures r == FormOutcome(browser)
      ensures trace == old(trace) + FormTrace(browser, email, password, field)
    {
      trace := trace + [Type(field, email), Await(PasswordSelector)];
      if PasswordSelector !in browser.clickable {
        return Raised(browser.timeoutText(Clickable(PasswordSelector)));
      }
      trace := trace + [Type(PasswordSelector, password), Await(LoginButton)];
      if LoginButton !in browser.clickable {
        return Raised(browser.timeoutText(Clickable(LoginButton)));
      }
      trace := trace + [Click(LoginButton)];
      if !browser.leavesLogin {
        return Raised(browser.timeoutText(LeavesLogin));
      }
      return Ok(());
    }

    method Login() returns (r: Outcome<()>)
      modifies this
      ensures r == LoginOutcome(browser)
      ensures trace == old(trace) + LoginTrace(browser, email, password)
    {
      trace := trace + [Visit(LoginPage)];
      if LoginPage in browser.navError {
        return Raised(browser.navError[LoginPage]);
      }
      ghost var visited := trace;
      var k := FindEmailField();
      if k == |EmailSelectors| {
        ConcatAssoc(old(trace), [Visit(LoginPage)], SearchTrace(k));
        return Raised(NoEmailField);
      }
      ghost var searched := trace;
      r := SubmitForm(EmailSelectors[k]);
      ghost var form := FormTrace(browser, email, password, EmailSelectors[k]);
      ConcatAssoc(visited, SearchTrace(k), form);
      ConcatAssoc(old(trace), [Visit(LoginPage)], SearchTrace(k) + form);
    }

    method Checkin() returns (r: Outcome<string>)
      modifies this
      ensures r == CheckinOutcome(browser)
      ensures trace == old(trace) + CheckinTrace(browser)
    {
      trace := trace + [Visit(CheckinPage)];
      if CheckinPage in browser.navError {
        return Raised(browser.navError[CheckinPage]);
      }
      match browser.button {
        case NoButton =>
          return Ok(CheckinFailed);
        case Button(text, clickRaises) =>
          if Contains(text, DoneMarker) {
            return Ok(AlreadyCheckedIn);
          }
          trace := trace + [Click(CheckinButton)];
          if clickRaises {
            return Ok(CheckinFailed);
          }
          return Ok(CheckedIn);
      }
    }

    method GetBalance() returns (r: Outcome<string>)
      modifies this
      ensures r == BalanceOutcome(browser)
      ensures trace == old(trace) + [Visit(Dashboard)]
    {
      trace := trace + [Visit(Dashboard)];
      if Dashboard in browser.navError {
        return Raised(browser.navError[Dashboard]);
      }
      return Ok(Balance.BalanceText(browser.body));
    }

    method Run() returns (r: Outcome<RunResult>)
      modifies this
      ensures r == RunCompletion(browser)
      ensures trace == old(trace) + RunTrace(browser, email, password)
    {
      var result: RunResult;
      var login := Login();
      if login.Raised? {
        result := RunResult(false, login.message, Balance.Unknown);
      } else {
        var message := Checkin();
        if message.Raised? {
          result := RunResult(false, message.message, Balance.Unknown);
        } else {
          var balance := GetBalance();
          if balance.Raised? {
            result := RunResult(false, balance.message, Balance.Unknown);
          } else {
            result := RunResult(true, message.value, balance.value);
          }
        }
      }
      // the `finally` clause
      trace := trace + [Quit];
      if browser.quitError.Some? {
        return Raised(browser.quitError.value);
      }
      return Ok(result);
    }
  }
}

=== FILE: manager.dfy ===
/** `MultiAccountManager`: the account list read once from the configuration
    value, and `run_all`, which runs one `LeaflowAutoCheckin` per account in
    order. Each account's browser is supplied by `sessions`: the browser of
    the account at position `i` is `sessions(i)`. */
module Manager {
  import opened Outcomes
  import opened Accounts
  import opened Checkin
  import Balance
  import Text

  /** The tuple `(email, success, message, balance)` of one account. */
  datatype Report = Report(email: string, succeeded: bool, message: string, balance: string)

  function ReportOf(a: Account, b: Browser): (r: Report)
    ensures r.email == a.email
    ensures !r.succeeded ==> r.balance == Balance.Unknown
  {
    var o := RunOutcome(b);
    Report(a.email, o.succeeded, o.message, o.balance)
  }

  /** The exception one turn of the loop lets escape: the constructor's, or
      else the one `run` raises from its `finally` clause. */
  function TurnError(a: Account, b: Browser): (e: Option<string>)
    ensures e.None? <==> InitError(a.email, a.password, b).None? && b.quitError.None?
    ensures InitError(a.email, a.password, b).Some? ==> e == InitError(a.email, a.password, b)
    ensures InitError(a.email, a.password, b).None? ==> e == b.quitError
  {
    if InitError(a.email, a.password, b).Some? then InitError(a.email, a.password, b) else b.quitError
  }

  function AbortOf(accounts: seq<Account>, sessions: nat -> Browser, k: nat): Option<string>
    requires k < |accounts|
  {
    TurnError(accounts[k], sessions(k))
  }

  /** The first account, from position `i` on, whose turn raises, or
      `|accounts|`. */
  function FirstAbort(accounts: seq<Account>, sessions: nat -> Browser, i: nat): (k: nat)
    requires i <= |accounts|
    ensures i <= k <= |accounts|
    ensures forall j :: i <= j < k ==> AbortOf(accounts, sessions, j).None?
    ensures k < |accounts| ==> AbortOf(accounts, sessions, k).Some?
    decreases |accounts| - i
  {
    if i == |accounts| || AbortOf(accounts, sessions, i).Some? then i
    else FirstAbort(accounts, sessions, i + 1)
  }

  /** What `run_all` returns or raises: one report per account, in account
      order, unless a turn raises, which aborts the whole loop with the first
      such exception. */
  function RunAllOutcome(accounts: seq<Account>, sessions: nat -> Browser): (r: Outcome<seq<Report>>)
    ensures r.Ok? <==>
      forall k :: 0 <= k < |accounts| ==> AbortOf(accounts, sessions, k).None?
    ensures r.Ok? ==> |r.value| == |accounts|
    ensures r.Ok? ==> forall k :: 0 <= k < |accounts| ==>
      r.value[k].email == accounts[k].email && r.value[k] == ReportOf(accounts[k], sessions(k))
    ensures r.Raised? ==> exists k :: 0 <= k < |accounts| && AbortOf(accounts, sessions, k) == Some(r.message)
    ensures r.Raised? ==> r.message == AbortOf(accounts, sessions, FirstAbort(accounts, sessions, 0)).value
  {
    var k := FirstAbort(accounts, sessions, 0);
    if k < |accounts| then
      Raised(AbortOf(accounts, sessions, k).value)
    else
      var reports := seq(|accounts|, i requires 0 <= i < |accounts| => ReportOf(accounts[i], sessions(i)));
      assert forall i :: 0 <= i < |accounts| ==> reports[i] == ReportOf(accounts[i], sessions(i));
      Ok(reports)
  }

  /** An account with an empty email or password, which `load_accounts`
      accepts, makes the whole run raise. */
  lemma EmptyFieldAbortsRun(accounts: seq<Account>, sessions: nat -> Browser, k: nat)
    requires k < |accounts| && (accounts[k].email == [] || accounts[k].password == [])
    ensures RunAllOutcome(accounts, sessions).Raised?
  {
    assert AbortOf(accounts, sessions, k).Some?;
  }

  /** A browser whose `quit()` raises makes the whole `run_all` raise, even
      after that account's run has finished. */
  lemma QuitErrorAbortsRun(accounts: seq<Account>, sessions: nat -> Browser, k: nat)
    requires k < |accounts| && sessions(k).quitError.Some?
    ensures RunAllOutcome(accounts, sessions).Raised?
  {
    assert AbortOf(accounts, sessions, k).Some?;
  }

  class MultiAccountManager {
    const accounts: seq<Account>

    constructor (accounts: seq<Account>)
      requires accounts != []
      ensures this.accounts == accounts
    {
      this.accounts := accounts;
    }

    /** `MultiAccountManager()`: loads the accounts from the configuration
        value and raises when none is usable. */
    static method Create(raw: string) returns (r: Outcome<MultiAccountManager>)
      ensures r.Raised? <==> ParseItems(Text.Split(raw, ',')) == []
      ensures r.Raised? ==> r.message == NotConfigured
      ensures r.Ok? ==> fresh(r.value) && r.value.accounts == ParseItems(Text.Split(raw, ','))
    {
      var loaded := LoadAccounts(raw);
      NoAccountsIffNoColon(Text.Split(raw, ','));
      if loaded.Raised? {
        return Raised(loaded.message);
      }
      var m := new MultiAccountManager(loaded.value);
      return Ok(m);
    }

    /** One turn of the loop in `run_all`: build the account's checker,
        run it and collect its tuple; an exception of the constructor or of
        `run` escapes. */
    static method RunAccount(account: Account, browser: Browser) returns (r: Outcome<Report>)
      ensures r.Raised? <==> TurnError(account, browser).Some?
      ensures r.Raised? ==> r.message == TurnError(account, browser).value
      ensures r.Ok? ==> r.value == ReportOf(account, browser)
    {
      var created := Checker.Create(account.email, account.password, browser);
      if created.Raised? {
        return Raised(created.message);
      }
      var checker := created.value;
      var outcome := checker.Run();
      if outcome.Raised? {
        return Raised(outcome.message);
      }
      var result := outcome.value;
      return Ok(Report(account.email, result.succeeded, result.message, result.balance));
    }

    method RunAll(sessions: nat -> Browser) returns (r: Outcome<seq<Report>>)
      ensures r == RunAllOutcome(accounts, sessions)
    {
      var results: seq<Report> := [];
      for i := 0 to |accounts|
        invariant |results| == i
        invariant forall k :: 0 <= k < i ==> AbortOf(accounts, sessions, k).None?
        invariant forall k :: 0 <= k < i ==> results[k] == ReportOf(accounts[k], sessions(k))
      {
        var report := RunAccount(accounts[i], sessions(i));
        if report.Raised? {
          assert AbortOf(accounts, sessions, i).Some?;
          assert FirstAbort(accounts, sessions, 0) == i;
          return Raised(report.message);
        }
        results := results + [report.value];
      }
      ghost var expected := RunAllOutcome(accounts, sessions);
      assert expected.Ok?;
      assert results == expected.value;
      return Ok(results);
    }
  }
}

=== FILE: outcomes.dfy ===
/** Failure-carrying values used throughout the model.
    `Outcome` stands for every Python call that either returns a value or
    raises, from the configuration loader and the constructors to the steps
    of a run;
    the raised exception is represented by its `str(e)` text, which is all the
    script ever looks at. */
module Outcomes {

  datatype Option<T> = None | Some(value: T)

  datatype Outcome<T> = Ok(value: T) | Raised(message: string)
}

=== FILE: text.dfy ===
/** The Python string operations the script relies on: `str.strip()`,
    `str.split(sep)`, `str.split(sep, 1)` and the `in` test on strings. */
module Text {

  /** The characters for which Python's `str.isspace()` holds: the Unicode
      White_Space characters together with the four ASCII information
      separators U+001C..U+001F. */
  const Whitespace: set<char> := {
    '\t', '\n', '\U{0b}', '\U{0c}', '\r', '\U{1c}', '\U{1d}', '\U{1e}', '\U{1f}', ' ',
    '\U{85}', '\U{a0}', '\U{1680}',
    '\U{2000}', '\U{2001}', '\U{2002}', '\U{2003}', '\U{2004}', '\U{2005}',
    '\U{2006}', '\U{2007}', '\U{2008}', '\U{2009}', '\U{200a}',
    '\U{2028}', '\U{2029}', '\U{202f}', '\U{205f}', '\U{3000}'
  }

  predicate IsSpace(c: char) {
    c in Whitespace
  }

  predicate AllSpace(s: string) {
    forall k :: 0 <= k < |s| ==> IsSpace(s[k])
  }

  /** A string that `strip()` leaves alone: no whitespace at either end. */
  predicate Stripped(s: string) {
    s == [] || (!IsSpace(s[0]) && !IsSpace(s[|s| - 1]))
  }

  function DropLeadingSpace(s: string): (r: string)
    ensures |r| <= |s| && r == s[|s| - |r|..]
    ensures AllSpace(s[..|s| - |r|])
    ensures r == [] || !IsSpace(r[0])
  {
    if s != [] && IsSpace(s[0]) then
      var r := DropLeadingSpace(s[1..]);
      assert s[..|s| - |r|] == [s[0]] + s[1..][..|s| - 1 - |r|];
      r
    else
      s
  }

  function DropTrailingSpace(s: string): (r: string)
    ensures |r| <= |s| && r == s[..|r|]
    ensures AllSpace(s[|r|..])
    ensures r == [] || !IsSpace(r[|r| - 1])
  {
    if s != [] && IsSpace(s[|s| - 1]) then
      var r := DropTrailingSpace(s[..|s| - 1]);
      assert s[|r|..] == s[..|s| - 1][|r|..] + [s[|s| - 1]];
      r
    else
      s
  }

  /** Python's `str.strip()` with no argument. */
  function Strip(s: string): (r: string)
    ensures |r| <= |s|
    ensures Stripped(r)
    ensures Stripped(s) ==> r == s
  {
    DropTrailingSpace(DropLeadingSpace(s))
  }

  lemma {:induction false} DropLeadingSpacePrefix(pre: string, t: string)
    requires AllSpace(pre)
    ensures DropLeadingSpace(pre + t) == DropLeadingSpace(t)
    decreases |pre|
  {
    if pre != [] {
      assert (pre + t)[0] == pre[0];
      assert (pre + t)[1..] == pre[1..] + t;
      DropLeadingSpacePrefix(pre[1..], t);
    } else {
      assert pre + t == t;
    }
  }

  lemma {:induction false} DropTrailingSpaceSuffix(t: string, post: string)
    requires AllSpace(post)
    ensures DropTrailingSpace(t + post) == DropTrailingSpace(t)
    decreases |post|
  {
    if post != [] {
      var n := |post| - 1;
      assert (t + post)[|t + post| - 1] == post[n];
      assert (t + post)[..|t + post| - 1] == t + post[..n];
      DropTrailingSpaceSuffix(t, post[..n]);
    } else {
      assert t + post == t;
    }
  }

  lemma DropLeadingSpaceNone(t: string)
    requires t == [] || !IsSpace(t[0])
    ensures DropLeadingSpace(t) == t
  {
  }

  lemma DropTrailingSpaceNone(t: string)
    requires t == [] || !IsSpace(t[|t| - 1])
    ensures DropTrailingSpace(t) == t
  {
  }

  /** `strip()` removes exactly the surrounding whitespace: padding a stripped
      string with whitespace on either side does not change the result. */
  lemma StripPadded(pre: string, core: string, post: string)
    requires AllSpace(pre) && AllSpace(post) && Stripped(core)
    ensures Strip(pre + core + post) == core
  {
    assert pre + core + post == pre + (core + post);
    DropLeadingSpacePrefix(pre, core + post);
    if core == [] {
      assert core + post == post;
      assert DropLeadingSpace(post) == [];
    } else {
      assert (core + post)[0] == core[0];
      DropLeadingSpaceNone(core + post);
      DropTrailingSpaceSuffix(core, post);
      DropTrailingSpaceNone(core);
    }
  }

  /** A string without the separator splits into itself alone. */
  lemma SplitWithoutSeparator(s: string, sep: char)
    requires sep !in s
    ensures Split(s, sep) == [s]
  {
    assert IndexOf(s, sep) == |s|;
  }

  /** Index of the first `c` in `s`, or `|s|` when there is none. */
  function IndexOf(s: string, c: char): (i: nat)
    ensures i <= |s|
    ensures forall k :: 0 <= k < i ==> s[k] != c
    ensures i < |s| ==> s[i] == c
  {
    if s == [] || s[0] == c then 0 else 1 + IndexOf(s[1..], c)
  }

  lemma ConcatAssoc<T>(a: seq<T>, b: seq<T>, c: seq<T>)
    ensures a + b + c == a + (b + c)
  {
  }

  /** Python's `sep.join(parts)`. */
  function Join(parts: seq<string>, sep: char): string
  {
    if parts == [] then []
    else if |parts| == 1 then parts[0]
    else parts[0] + [sep] + Join(parts[1..], sep)
  }

  /** Python's `s.split(sep)` for a one-character separator: the pieces between
      separators, so `"".split(",")` is `[""]`. */
  function Split(s: string, sep: char): (parts: seq<string>)
    ensures |parts| >= 1
    ensures forall k :: 0 <= k < |parts| ==> sep !in parts[k]
    ensures Join(parts, sep) == s
    decreases |s|
  {
    var i := IndexOf(s, sep);
    if i == |s| then
      [s]
    else
      var rest := Split(s[i + 1..], sep);
      assert s == s[..i] + [sep] + s[i + 1..];
      [s[..i]] + rest
  }

  /** Splitting undoes joining when no part holds the separator. */
  lemma {:induction false} SplitJoin(parts: seq<string>, sep: char)
    requires |parts| >= 1
    requires forall k :: 0 <= k < |parts| ==> sep !in parts[k]
    ensures Split(Join(parts, sep), sep) == parts
  {
    var s := Join(parts, sep);
    var p := parts[0];
    if |parts| == 1 {
      assert IndexOf(s, sep) == |s|;
    } else {
      var rest := Join(parts[1..], sep);
      assert s == p + [sep] + rest;
      var i := IndexOf(s, sep);
      assert s[|p|] == sep;
      assert i == |p|;
      assert s[..i] == p;
      assert s[i + 1..] == rest;
      SplitJoin(parts[1..], sep);
    }
  }

  /** Python's `s.split(sep, 1)` when `sep in s`: the text before the first
      separator and everything after it, further separators included. */
  function SplitFirst(s: string, sep: char): (halves: (string, string))
    requires sep in s
    ensures s == halves.0 + [sep] + halves.1
    ensures sep !in halves.0
  {
    var i := IndexOf(s, sep);
    assert s == s[..i] + [sep] + s[i + 1..];
    (s[..i], s[i + 1..])
  }

  /** The first-separator split of `before + [sep] + after` gives back
      `before` and `after` when `before` holds no separator. */
  lemma SplitFirstOf(before: string, sep: char, after: string)
    requires sep !in before
    ensures SplitFirst(before + [sep] + after, sep) == (before, after)
  {
    var s := before + [sep] + after;
    assert s[|before|] == sep;
    assert forall k :: 0 <= k < |before| ==> s[k] == before[k];
    assert IndexOf(s, sep) == |before|;
    assert s[..|before|] == before;
    assert s[|before| + 1..] == after;
  }

  predicate InfixAt(pat: string, text: string, i: nat) {
    i + |pat| <= |text| && text[i..i + |pat|] == pat
  }

  /** Python's `pat in text` for strings: true exactly when `pat` occurs
      somewhere in `text`. */
  function Contains(text: string, pat: string): (r: bool)
    ensures r <==> exists i: nat :: InfixAt(pat, text, i)
    decreases |text|
  {
    if |text| < |pat| then
      false
    else if text[..|pat|] == pat then
      assert InfixAt(pat, text, 0);
      true
    else
      OccursInTail(text, pat);
      Contains(text[1..], pat)
  }

  /** When `pat` does not start `text`, it occurs in `text` exactly when it
      occurs in `text` without its first character. */
  lemma OccursInTail(text: string, pat: string)
    requires |pat| <= |text| && text[..|pat|] != pat
    ensures (exists i: nat :: InfixAt(pat, text, i)) <==> (exists i: nat :: InfixAt(pat, text[1..], i))
  {
    if exists i: nat :: InfixAt(pat, text, i) {
      var i: nat :| InfixAt(pat, text, i);
      assert i > 0;
      assert text[1..][i - 1..i - 1 + |pat|] == text[i..i + |pat|];
      assert InfixAt(pat, text[1..], i - 1);
    }
    if exists i: nat :: InfixAt(pat, text[1..], i) {
      var i: nat :| InfixAt(pat, text[1..], i);
      assert text[1..][i..i + |pat|] == text[i + 1..i + 1 + |pat|];
      assert InfixAt(pat, text, i + 1);
    }
  }
}
